=== FILE: README.md ===
# Google Apps Script mocks of the Org-chart dashboard

The dashboard (`Index.html`) runs inside Google Apps Script. It reaches its
backend through `google.script.run` and draws with `google.charts`. Outside
Apps Script, two stand-ins for the `google` global take their place. This
project models both and proves what they guarantee to the page.

- **mock_backend.js** is an asynchronous mock, installed as `window.google`.
  `google.script.run` is a closure with three variables: the success
  callback, the failure callback, and the name of the backend function
  called last. A Proxy over it hands out the two registration methods by
  name. Any other name is taken as a backend function. Calling one records
  the name and sets a 50 ms timer. When the timer fires, it calls the
  success callback (when one is set) with the fixture for the name called
  last, then empties both slots, unless the callback threw. `charts.setOnLoadCallback` runs its
  callback after 100 ms.
- **verify_tabs.js** is a synchronous mock plus a fail-fast check sequence.
  Its `google.script.run` is a fixed chain:
  `withSuccessHandler(h)`, then `withFailureHandler(f)`, then one of six
  methods. The method calls `h` at once with a constant payload.
  `charts.setOnLoadCallback` calls its argument at once when it is a
  function. `confirm` always answers yes, and `alert` and the chart
  objects do nothing. Seven `check` calls then run in a `try` block. The
  first failing check, or the first exception, ends the run with status 1.

Modules:

- `JsValue` (js_value.dfy): JavaScript values, truthiness, the first argument
  of a call, property access, and the API names both mocks share.
- `TimerQueue` (timer_queue.dfy): the host's `setTimeout` queue, kept in
  due-time order with first-in-first-out order among equal due times.
- `BackendFixtures` (backend_fixtures.dfy): the four canned responses of the
  asynchronous mock.
- `MockBackend` (mock_backend.dfy): the closure state as a value `Bridge`,
  its actions (`Apply`) and timer firings (`Fire`). The class `GoogleMock`
  updates the same state in place. Each method is proved against
  `Apply` or `Fire`, and a ghost log keeps the outcome of every fired timer.
- `BridgeProperties` (bridge_properties.dfy): properties of whole runs,
  meaning synchronous actions interleaved with timers firing.
- `TabsMock` (tabs_mock.dfy): the synchronous chain, its payloads, and
  `setOnLoadCallback`, `confirm` and the chart stand-ins.
- `MockAgreement` (mock_agreement.dfy): the two mocks compared where both
  define a behaviour.
- `TabsCheck` (tabs_check.dfy): `check`, the `try`/`catch` sequence
  (`RunChecks`), and the seven tab-navigation checks.

`JsValue.FirstArg` (the first argument, or undefined), `MockBackend.Resolve`
(the proxy's `get` trap at mock_backend.js:32-39: the two registration names
give the runner's own methods, any other name a backend function of that
name) and `TabsCheck.OutcomeOf` (the line `check` logs, verify_tabs.js:66-73)
are plain definitions; what they mean is stated by the contracts of `Apply`,
`Fire` and `RunChecks`, which use them. Three more plain definitions carry
the rest of the model. `TabsMock.Chain` (verify_tabs.js:7-21) evaluates a
chain of property calls on the synchronous `run` object, link by link, and
`TabsMock.ChainCallsOnlyInOrder` states what it does.
`TabsCheck.TabSteps` (verify_tabs.js:76-106) lists the seven checks of the
`try` block as steps over the observed page, and
`TabsCheck.TabRunPassesIff` states when they all pass.
`BridgeProperties.Run` (mock_backend.js:39-78) plays a page run in the
asynchronous mock. The run interleaves three kinds of events: synchronous
actions, timer firings, and the host clock moving on while no timer is due
(`MockBackend.Advance`). The lemmas of `BridgeProperties` are stated over
`Run`. The synchronous `confirm` (`TabsMock.Confirm`) always
answers yes, and the chart constructors (`TabsMock.ChartMethods`) return
objects whose `draw`, or `addColumn` and `addRow` for a data table, do
nothing.

What a callback does when it runs is code outside both mocks. In the
asynchronous model, the firing step takes two parameters for it: the calls
the callback makes back into the mock (`nested`), and whether it then
throws (`throws`). A success callback that throws skips the reset at
mock_backend.js:76-77, so it stays registered.

## Model

| member | source | states |
|---|---|---|
| JsValue.Truthy | mock_backend.js:44 | JavaScript truthiness of a value, the test the delivery applies to the success slot |
| TimerQueue.SlotFor | mock_backend.js:43 | the insertion point of a new timer lies after every timer due no later and before the first one due strictly later |
| TimerQueue.ScheduleMultiset | mock_backend.js:43 | scheduling a timer adds exactly that timer to the pending set and loses none |
| TimerQueue.SchedulePositions | mock_backend.js:43 | the new timer sits at its slot; timers before the slot keep their places and those after move back by one |
| TimerQueue.ScheduleSorted | mock_backend.js:43 | a queue in due-time order stays in order, and every timer behind the new one is due strictly later |
| TimerQueue.ScheduleNotBefore | mock_backend.js:43 | scheduling a timer due no earlier than the clock keeps every pending timer not overdue |
| TimerQueue.SameDueFifo | mock_backend.js:43 | of two timers set one after the other with the same due time, the first goes in at its slot, the second at a strictly later slot, and the second insertion does not move the first: they fire in the order they were set |
| BackendFixtures.Fixture | mock_backend.js:45-71 | the payload is undefined exactly for names outside the four fixtures; `checkUserAccess` authorises the test user; `getEmployeeData` grants edit and approve rights, reports the test user and the clock string as snapshot timestamp, has empty current and previous data and dropdown lists for job levels, divisions and departments; `getUpcomingDues` has empty upcoming and overdue lists; `getMasterlistData` has 4 headers and 2 rows of 4 cells |
| MockBackend.Apply | mock_backend.js:5-43 | a registration overwrites only its own slot, with the first argument; a backend call keeps both slots, records its name as last called and adds exactly one delivery due 50 ms from now; `load` changes nothing; `setOnLoadCallback` adds exactly one on-load timer due 100 ms from now; no action moves the clock |
| MockBackend.Fire | mock_backend.js:6-78 | the earliest timer leaves the queue and the clock moves to its due time; a delivery calls the success callback iff the slot holds a function, with the fixture of the name called last; when the callback returns normally both slots are then emptied, wiping any registration it made, and when it throws both slots keep what they hold after its calls; a falsy slot only empties the slots; a truthy non-function throws and leaves the slots and the name as they were; an on-load timer calls its callback with no arguments and, when the callback calls nothing, touches no slot; the failure slot is never called; the new state is stated in full for every case |
| MockBackend.ApplyValid | mock_backend.js:39-43 | every action keeps the pending timers in firing order and none overdue |
| MockBackend.ApplyAllValid | mock_backend.js:39-43 | so does any sequence of actions |
| MockBackend.PopValid | mock_backend.js:43 | taking the earliest timer off a valid queue and moving the clock to its due time leaves a valid queue |
| MockBackend.FireValid | mock_backend.js:43-78 | firing keeps the timers in order and never moves the clock backwards |
| MockBackend.Advance | mock_backend.js:43-78 | the host clock moving on while no timer fires: it goes to the requested time, but never backwards and never past the earliest pending timer; nothing else changes |
| MockBackend.AdvanceValid | mock_backend.js:43-78 | waiting keeps the timers in order and none overdue |
| MockBackend.GoogleMock.constructor | mock_backend.js:13-16 | the closure starts with both slots null, no name called and no timers, and the timer invariant holds |
| MockBackend.GoogleMock.WithSuccessHandler | mock_backend.js:20-23 | stores the callback in the success slot, changes nothing else and returns the same object for chaining |
| MockBackend.GoogleMock.WithFailureHandler | mock_backend.js:24-27 | stores the callback in the failure slot, changes nothing else and returns the same object |
| MockBackend.GoogleMock.Invoke | mock_backend.js:39-80 | records the name, leaves the slots alone, inserts one delivery at now + 50 into the timer queue and returns the proxy itself, so calls can be chained |
| MockBackend.GoogleMock.SetOnLoad | mock_backend.js:6-10 | inserts one on-load timer at now + 100 and changes nothing else |
| MockBackend.GoogleMock.Perform | mock_backend.js:32-39 | dispatches a property access through the trap; the new state is the one `Apply` gives |
| MockBackend.GoogleMock.PerformAll | mock_backend.js:18-43 | a sequence of synchronous uses leaves the state `ApplyAll` gives |
| MockBackend.GoogleMock.RunNextTimer | mock_backend.js:43-78 | fires the earliest timer, which the class invariant (timers in firing order, none overdue) makes the head of the queue; new state and outcome are those of `Fire`, including a success callback that throws and so leaves both slots set; the outcome is appended to the log and the invariant is kept |
| MockBackend.GoogleMock.Wait | mock_backend.js:43-78 | moves the clock as `Advance` does, changes nothing else and keeps the invariant |
| BridgeProperties.CallDeliversFixture | mock_backend.js:39-78 | register, call, fire: 50 ms later the callback receives that name's fixture, once, both slots are empty and nothing else fires |
| BridgeProperties.LastCallWins | mock_backend.js:40-77 | two calls before the first delivery, whose callback returns normally: the first delivery hands the second name's fixture to the callback and the second delivery finds no callback, whatever calls the callback makes |
| BridgeProperties.ThrowingCallbackCalledAgain | mock_backend.js:73-77 | a success callback that throws on its delivery is called again, with the next call's fixture, by the next delivery without being registered again; had it returned normally, the next delivery would call nothing |
| BridgeProperties.SuccessHandlerSingleUse | mock_backend.js:73-77 | over any run, the calls a function receives as success callback, plus one if it is still registered at the end, never exceed the times it was registered (plus one if registered at the start) plus the number of firings whose callback throws; with no throwing callback, a callback registered once is called at most once |
| BridgeProperties.DeliveryNeedsRegistration | mock_backend.js:20-77 | every delivery of a run goes to a function that was in the success slot at the start or that the run registered as success callback, throwing callbacks included |
| BridgeProperties.NoRegistrationNoDelivery | mock_backend.js:44-77 | with no function in the success slot and no registration in the run, no delivery calls anything, even when callbacks throw |
| BridgeProperties.FailureHandlerNeverCalled | mock_backend.js:14-27 | a function only ever passed to `withFailureHandler` is never called by any timer |
| BridgeProperties.FailureSlotIrrelevant | mock_backend.js:24-27 | what the failure slot holds changes neither the outcomes of a run nor anything of its final state but that slot |
| BridgeProperties.ArgumentsIgnored | mock_backend.js:39-40 | a backend call's arguments do not affect the state; only its name does |
| BridgeProperties.OnLoadRunsOnce | mock_backend.js:6-10 | `setOnLoadCallback` runs the callback once, 100 ms later, with no arguments |
| BridgeProperties.WaitOrdersTimers | mock_backend.js:6-78 | register an on-load callback, wait d ms (at most 100), call a backend function, fire twice: the delivery fires first iff it is due strictly before the on-load timer (d < 50); at d >= 50 the on-load timer, set first, fires first and the delivery then carries the second clock string |
| BridgeProperties.RunValid | mock_backend.js:39-78 | every run keeps the timers in firing order and never winds the clock back |
| TabsMock.Payload | verify_tabs.js:13-18 | each method's payload: the authorised test user; employee data with edit rights but no approve rights and no dropdown lists; an empty object; empty due lists; all-zero analytics and resignation aggregates |
| TabsMock.Access | verify_tabs.js:7-21 | `run` has only `withSuccessHandler`, its result only `withFailureHandler`, that result only the six methods; a method calls the success handler at once with its payload; calling any property the object does not own throws |
| TabsMock.ChainCallsOnlyInOrder | verify_tabs.js:7-21 | a chain calls a handler iff its first three links are success registration with a function, failure registration and one of the six methods; it then calls exactly that function, once, with the method's payload, whatever links follow; it throws iff it is not a prefix of such a three-link chain |
| TabsMock.FailureHandlerIgnored | verify_tabs.js:10-18 | the failure handler given to the chain makes no difference to what any chain does |
| MockAgreement.PayloadsAgree | verify_tabs.js:13-18 | the synchronous `checkUserAccess` and `getUpcomingDues` payloads equal the asynchronous fixtures; the synchronous `getEmployeeData` payload is the asynchronous one without `canApprove` and `dropdownListData`; the other three synchronous methods have no asynchronous fixture |
| MockAgreement.ChainAgreesWithDelivery | verify_tabs.js:8-16 | register, register a failure handler, call a shared method: the synchronous chain calls the handler at once with exactly the call the asynchronous delivery makes when it fires |
| MockAgreement.OnLoadAgrees | verify_tabs.js:27-31 | `setOnLoadCallback` of a function makes at once exactly the call the asynchronous on-load timer makes when it fires; a non-function is ignored |
| TabsCheck.FirstFailure | verify_tabs.js:66-73 | the index of the first step that fails or throws: every step before it passes |
| TabsCheck.LaterStepsIrrelevant | verify_tabs.js:66-73 | fail-fast: steps after the first failure cannot change where the run stops |
| TabsCheck.RunChecks | verify_tabs.js:76-111 | logs the outcome of each step reached; completes with status 0 iff every step passes, otherwise stops right after the first failure with status 1 |
| TabsCheck.TabRunPassesIff | verify_tabs.js:76-106 | the run reaches the closing line iff the card exists, the tab area shows, the homepage hides, the resignation tab and view are active and the demographics view is not; then exactly the seven checks pass in order |

## Left out

- In the asynchronous mock, `charts.load` is the action `LoadCharts`, and `Apply` leaves the state unchanged for it. In the synchronous mock, `alert`, `charts.load`, `arrayToDataTable` and the chart objects' `draw`, `addColumn` and `addRow` have no effect. Of these, only the method names the chart objects offer are modelled (`TabsMock.ChartMethods`).
- The HTML page, JSDOM and the file read of `Index.html` are not modelled. Neither is the dashboard code the checks exercise: what the seven checks observe after the clicks is an input (`TabsCheck.Page`).
- Console text, emoji and `process.exit` are not modelled. Outcomes and the exit status are values.
- This repository has no scenario runner. The Playwright scripts under jules-scratch/verification each fix one pair of role flags, and they are not part of this model.
- `Date` is an opaque string parameter (`timestamp`), not tied to the clock. The clock is a count of milliseconds. It moves when a timer fires, to that timer's due time, and when the host waits (`Wait`), up to the next due time. Time spent running code is not modelled.
- The Proxy mechanism itself is not modelled: the `get` trap is the function `Resolve` from property name to member. Prototype and symbol properties (e.g. `then`, `toString`) are treated like any other name, as backend functions.
- A callback's own code is opaque. Only the calls it makes back into the mock (`nested`) are modelled, as if it runs them all before it returns.
- BridgeProperties.SuccessHandlerSingleUse: single use holds only for success callbacks that return normally. The reset at mock_backend.js:76-77 is not in a `finally`. A callback that throws therefore stays registered, and the next delivery calls it again (`ThrowingCallbackCalledAgain`). The bound allows one extra call per throwing firing, and does not say which callback threw. A likely trigger is a name without a fixture: its callback receives undefined, and page code that reads a field of it throws.
- BridgeProperties.LastCallWins: stated for a first callback that returns normally. When it throws, the second delivery calls it again, as `ThrowingCallbackCalledAgain` shows.
- Where an exception thrown by a timer callback goes (the host's error report) is not modelled. The timer is gone, and the model goes on with the next event.
- MockBackend.Apply: `setOnLoadCallback` is modelled for function arguments only (`HandlerId`). A non-function would make the host's `setTimeout` throw or evaluate a string, and neither is modelled.
- TabsMock.Access: the three objects of the synchronous chain are plain object literals and so also inherit the members of `Object.prototype` (`toString`, `valueOf`, `hasOwnProperty`, `constructor` and the rest). Calling those returns normally in JavaScript, but the model treats every property other than the chain's own as undefined, so calling it throws.
- TabsMock.ChainCallsOnlyInOrder: a handler's return value is taken as having none of the chain's methods, so any link after the backend method throws. A handler that returned an object with such a method would let the chain go on; that is not modelled.
- Numbers are integers. The fixtures use no other numbers.
- Concurrency between timers and page code does not arise: JavaScript runs one task at a time, and the model fires timers one at a time between synchronous actions.

=== FILE: backend_fixtures.dfy ===
/** The canned responses of the asynchronous `google.script.run` mock
    (mock_backend.js): which payload a delivery hands to the success
    callback, chosen by the name of the backend function last called. */
module BackendFixtures {
  import opened JsValue

  /** The four backend names that have a fixture. */
  const FixtureNames: set<string> :=
    {"checkUserAccess", "getEmployeeData", "getUpcomingDues", "getMasterlistData"}

  /** The response for `name`. `timestamp` stands for `new Date().toISOString()`
      at delivery time. Every other name leaves the payload undefined, and the
      undefined value is still what the callback receives. */
  function Fixture(name: string, timestamp: string): (r: Value)
    ensures r == Undefined <==> name !in FixtureNames
    ensures name == "checkUserAccess" ==>
              Get(r, "isAuthorized") == Bool(true) && Get(r, "userEmail") == Str(TestEmail)
    ensures name == "getEmployeeData" ==>
              Get(r, "canEdit") == Bool(true) && Get(r, "canApprove") == Bool(true) &&
              Get(r, "currentUserEmail") == Str(TestEmail) &&
              Get(r, "snapshotTimestamp") == Str(timestamp) &&
              Get(r, "current") == Arr([]) && Get(r, "previous") == Obj(map[]) &&
              Get(r, "dropdownListData").Obj? &&
              Get(r, "dropdownListData").fields.Keys == {"joblevel", "divisions", "departments"}
    ensures name == "getUpcomingDues" ==>
              Get(r, "upcoming") == Arr([]) && Get(r, "overdue") == Arr([])
    ensures name == "getMasterlistData" ==>
              Get(r, "headers").Arr? && |Get(r, "headers").items| == 4 &&
              Get(r, "rows").Arr? && |Get(r, "rows").items| == 2 &&
              forall i | 0 <= i < 2 ::
                Get(r, "rows").items[i].Arr? && |Get(r, "rows").items[i].items| == 4
  {
    if name == "checkUserAccess" then
      Obj(map["isAuthorized" := Bool(true), "userEmail" := Str(TestEmail)])
    else if name == "getEmployeeData" then
      Obj(map[
        "current" := Arr([]),
        "previous" := Obj(map[]),
        "snapshotTimestamp" := Str(timestamp),
        "currentUserEmail" := Str(TestEmail),
        "canEdit" := Bool(true),
        "canApprove" := Bool(true),
        "totalApprovedPlantilla" := Num(100),
        "previousDateString" := Str("2023-01-01"),
        "dropdownListData" := Obj(map[
          "joblevel" := Arr([Str("JL1"), Str("JL2")]),
          "divisions" := Arr([Str("Division A")]),
          "departments" := Arr([Str("Dept X")])])])
    else if name == "getUpcomingDues" then
      Obj(map["upcoming" := Arr([]), "overdue" := Arr([])])
    else if name == "getMasterlistData" then
      Obj(map[
        "headers" := Arr([Str("ID"), Str("Name"), Str("Role"), Str("Department")]),
        "rows" := Arr([
          Arr([Str("1"), Str("John Doe"), Str("Dev"), Str("Eng")]),
          Arr([Str("2"), Str("Jane Smith"), Str("PM"), Str("Product")])])])
    else
      Undefined
  }
}

=== FILE: bridge_properties.dfy ===
/** What the asynchronous mock of mock_backend.js guarantees over whole
    runs: synchronous actions interleaved with timers firing. */
module BridgeProperties {
  import opened JsValue
  import opened TimerQueue
  import opened BackendFixtures
  import opened MockBackend

  /** One step of a page run: a synchronous action; the host firing the
      next timer, with the clock string, what the running callback does and
      whether it then throws; or the host's clock moving on to `until`
      while no timer is due. */
  datatype Event =
    | Act(action: Action)
    | Tick(timestamp: string, nested: seq<Action>, throws: bool)
    | Wait(until: nat)

  /** Final state of a run, and what each fired timer did, in order. */
  datatype Trace = Trace(state: Bridge, outcomes: seq<Outcome>)

  /** The number of timer firings among `events`. */
  function Ticks(events: seq<Event>): nat
    decreases |events|
  {
    if events == [] then 0 else (if events[0].Tick? then 1 else 0) + Ticks(events[1..])
  }

  /** A run records one outcome per timer firing, in order. */
  function Run(s: Bridge, events: seq<Event>): (r: Trace)
    ensures |r.outcomes| == Ticks(events)
    decreases |events|
  {
    if events == [] then Trace(s, [])
    else
      match events[0]
      case Act(a) => Run(Apply(s, a), events[1..])
      case Tick(ts, nested, throws) =>
        var f := Fire(s, ts, nested, throws);
        var rest := Run(f.state, events[1..]);
        Trace(rest.state, [f.outcome] + rest.outcomes)
      case Wait(t) => Run(Advance(s, t), events[1..])
  }

  // ---------------------------------------------------------------------
  // A registered callback, one call, one delivery.

  /** Register a success callback, call a backend function, let the timer
      fire: 50 ms later the callback receives that function's fixture, once;
      when the callback makes no further calls nothing else is pending. */
  lemma CallDeliversFixture(s: Bridge, h: HandlerId, name: string, args: seq<Value>,
                            ts: string, ts': string)
    requires s.timers == [] && !IsRegistration(name)
    ensures var s1 := Apply(Apply(s, RunCall(SuccessRegistration, [Fn(h)])), RunCall(name, args));
            var f := Fire(s1, ts, [], false);
            f.outcome == Delivered(Invocation(h, [Fixture(name, ts)])) &&
            f.state.now == s.now + DeliveryDelay &&
            f.state.success == Null && f.state.failure == Null &&
            Fire(f.state, ts', [], false).outcome == Idle
  {
    var s0 := Apply(s, RunCall(SuccessRegistration, [Fn(h)]));
    var s1 := Apply(s0, RunCall(name, args));
    assert s1.timers == [Timer(s.now + DeliveryDelay, Deliver)];
  }

  /** A timer due earlier than anything an action can schedule stays at the
      head of the queue whatever actions run. */
  lemma ApplyKeepsHead(s: Bridge, a: Action)
    requires s.timers != [] && s.timers[0].due < s.now + DeliveryDelay
    ensures Apply(s, a).timers != [] && Apply(s, a).timers[0] == s.timers[0]
  {
    match a
    case RunCall(prop, args) =>
      if !IsRegistration(prop) {
        var t := Timer(s.now + DeliveryDelay, Deliver);
        SlotForAtLeast(s.timers, t, 1);
        SchedulePositions(s.timers, t);
      }
    case SetOnLoadCallback(cb) =>
      var t := Timer(s.now + OnLoadDelay, OnLoad(cb));
      SlotForAtLeast(s.timers, t, 1);
      SchedulePositions(s.timers, t);
    case LoadCharts =>
  }

  lemma {:induction false} ApplyAllKeepsHead(s: Bridge, acts: seq<Action>)
    requires s.timers != [] && s.timers[0].due < s.now + DeliveryDelay
    ensures ApplyAll(s, acts).timers != [] && ApplyAll(s, acts).timers[0] == s.timers[0]
    decreases |acts|
  {
    if acts != [] {
      var prev := ApplyAll(s, acts[..|acts| - 1]);
      ApplyAllKeepsHead(s, acts[..|acts| - 1]);
      ApplyKeepsHead(prev, acts[|acts| - 1]);
    }
  }

  /** Last call wins: two backend calls before the first delivery schedule two
      deliveries; the first hands the SECOND name's fixture to the callback and
      empties the slots, so the second finds no callback. This holds whatever
      calls the callback makes, since it runs before the slots are emptied,
      as long as it returns normally. */
  lemma LastCallWins(s: Bridge, h: HandlerId, a: string, argsA: seq<Value>,
                     b: string, argsB: seq<Value>, ts1: string, nested1: seq<Action>,
                     ts2: string, nested2: seq<Action>, throws2: bool)
    requires s.timers == [] && s.success == Fn(h)
    requires !IsRegistration(a) && !IsRegistration(b)
    ensures var s2 := Apply(Apply(s, RunCall(a, argsA)), RunCall(b, argsB));
            var f1 := Fire(s2, ts1, nested1, false);
            var f2 := Fire(f1.state, ts2, nested2, throws2);
            f1.outcome == Delivered(Invocation(h, [Fixture(b, ts1)])) &&
            f2.outcome == Quiet &&
            f2.state.now == f1.state.now
  {
    var t := Timer(s.now + DeliveryDelay, Deliver);
    var s1 := Apply(s, RunCall(a, argsA));
    assert Resolve(a) == BackendFunction(a) && Resolve(b) == BackendFunction(b);
    assert s1 == s.(last := a, timers := Schedule(s.timers, t));
    assert Schedule([], t) == [t];
    var s2 := Apply(s1, RunCall(b, argsB));
    assert s2 == s1.(last := b, timers := Schedule(s1.timers, t));
    assert SlotFor([t], t) == 1;
    assert Schedule([t], t) == [t, t];
    var popped := s2.(now := t.due, timers := [t]);
    assert s2.timers[1..] == [t];
    ApplyAllKeepsHead(popped, nested1);
    var f1 := Fire(s2, ts1, nested1, false);
    assert f1.state.timers[0] == t && f1.state.success == Null;
  }

  /** A success callback that throws is not cleared: the reset of the slots
      comes after the call and is skipped. A later backend call then
      delivers to the same callback again, with no new registration; had the
      callback returned normally, that call would have reached nobody. */
  lemma ThrowingCallbackCalledAgain(s: Bridge, h: HandlerId, a: string, argsA: seq<Value>,
                                    b: string, argsB: seq<Value>, ts1: string, ts2: string)
    requires s.timers == [] && s.success == Fn(h)
    requires !IsRegistration(a) && !IsRegistration(b)
    ensures var f1 := Fire(Apply(s, RunCall(a, argsA)), ts1, [], true);
            var f2 := Fire(Apply(f1.state, RunCall(b, argsB)), ts2, [], false);
            f1.outcome == Delivered(Invocation(h, [Fixture(a, ts1)])) &&
            f2.outcome == Delivered(Invocation(h, [Fixture(b, ts2)]))
    ensures var f1 := Fire(Apply(s, RunCall(a, argsA)), ts1, [], false);
            Fire(Apply(f1.state, RunCall(b, argsB)), ts2, [], false).outcome == Quiet
  {
    var s1 := Apply(s, RunCall(a, argsA));
    assert s1.timers == [Timer(s.now + DeliveryDelay, Deliver)];
    var f1 := Fire(s1, ts1, [], true);
    assert f1.state.timers == [] && f1.state.success == Fn(h);
    var g1 := Fire(s1, ts1, [], false);
    assert g1.state.timers == [] && g1.state.success == Null;
    assert Apply(f1.state, RunCall(b, argsB)).timers == [Timer(f1.state.now + DeliveryDelay, Deliver)];
    assert Apply(g1.state, RunCall(b, argsB)).timers == [Timer(g1.state.now + DeliveryDelay, Deliver)];
  }

  // ---------------------------------------------------------------------
  // Handlers are single-use.

  /** `a` puts function `h` into the success slot. */
  predicate RegistersSuccess(a: Action, h: HandlerId) {
    a.RunCall? && a.prop == SuccessRegistration && FirstArg(a.args) == Fn(h)
  }

  function CountRegistrations(acts: seq<Action>, h: HandlerId): nat
    decreases |acts|
  {
    if acts == [] then 0
    else CountRegistrations(acts[..|acts| - 1], h) + (if RegistersSuccess(acts[|acts| - 1], h) then 1 else 0)
  }

  /** Registrations of `h` as success callback in a run, also those made by
      callbacks while they run. */
  function RegistrationsIn(events: seq<Event>, h: HandlerId): nat
    decreases |events|
  {
    if events == [] then 0
    else
      (match events[0]
       case Act(a) => if RegistersSuccess(a, h) then 1 else 0
       case Tick(_, nested, _) => CountRegistrations(nested, h)
       case Wait(_) => 0)
      + RegistrationsIn(events[1..], h)
  }

  /** The timer firings of a run whose callback throws. */
  function Throwing(events: seq<Event>): nat
    decreases |events|
  {
    if events == [] then 0
    else (if events[0].Tick? && events[0].throws then 1 else 0) + Throwing(events[1..])
  }

  /** Deliveries to `h` among the outcomes. */
  function DeliveriesTo(outcomes: seq<Outcome>, h: HandlerId): nat
    decreases |outcomes|
  {
    if outcomes == [] then 0
    else (if outcomes[0].Delivered? && outcomes[0].call.handler == h then 1 else 0)
         + DeliveriesTo(outcomes[1..], h)
  }

  function Armed(s: Bridge, h: HandlerId): nat {
    if s.success == Fn(h) then 1 else 0
  }

  lemma ApplyArmed(s: Bridge, a: Action, h: HandlerId)
    ensures Armed(Apply(s, a), h) <= Armed(s, h) + (if RegistersSuccess(a, h) then 1 else 0)
  {
  }

  lemma {:induction false} ApplyAllArmed(s: Bridge, acts: seq<Action>, h: HandlerId)
    ensures Armed(ApplyAll(s, acts), h) <= Armed(s, h) + CountRegistrations(acts, h)
    decreases |acts|
  {
    if acts != [] {
      ApplyAllArmed(s, acts[..|acts| - 1], h);
      ApplyArmed(ApplyAll(s, acts[..|acts| - 1]), acts[|acts| - 1], h);
    }
  }

  lemma FireArmed(s: Bridge, ts: string, nested: seq<Action>, throws: bool, h: HandlerId)
    ensures var f := Fire(s, ts, nested, throws);
            (if f.outcome.Delivered? && f.outcome.call.handler == h then 1 else 0) + Armed(f.state, h)
              <= Armed(s, h) + CountRegistrations(nested, h) + (if throws then 1 else 0)
    ensures Armed(Fire(s, ts, nested, throws).state, h) <= Armed(s, h) + CountRegistrations(nested, h)
  {
    if s.timers != [] {
      var popped := s.(now := s.timers[0].due, timers := s.timers[1..]);
      ApplyAllArmed(popped, nested, h);
    }
  }

  /** Handlers are single-use as long as they return normally: over any
      run, the deliveries a function receives as success callback, plus one
      if it is still registered at the end, never exceed its registrations
      (plus one if it was registered at the start) plus the firings whose
      callback throws. A callback registered once in a run where no callback
      throws is called at most once. */
  lemma {:induction false} SuccessHandlerSingleUse(s: Bridge, events: seq<Event>, h: HandlerId)
    ensures var r := Run(s, events);
            DeliveriesTo(r.outcomes, h) + Armed(r.state, h)
              <= Armed(s, h) + RegistrationsIn(events, h) + Throwing(events)
    decreases |events|
  {
    if events != [] {
      match events[0]
      case Act(a) =>
        ApplyArmed(s, a, h);
        SuccessHandlerSingleUse(Apply(s, a), events[1..], h);
      case Tick(ts, nested, throws) =>
        var f := Fire(s, ts, nested, throws);
        FireArmed(s, ts, nested, throws, h);
        SuccessHandlerSingleUse(f.state, events[1..], h);
        var rest := Run(f.state, events[1..]);
        assert ([f.outcome] + rest.outcomes)[1..] == rest.outcomes;
      case Wait(t) =>
        SuccessHandlerSingleUse(Advance(s, t), events[1..], h);
    }
  }

  /** Every delivery goes to a function that was in the success slot at the
      start of the run or that the run registered as success callback,
      throwing callbacks included. */
  lemma {:induction false} DeliveryNeedsRegistration(s: Bridge, events: seq<Event>, i: nat)
    requires i < |Run(s, events).outcomes| && Run(s, events).outcomes[i].Delivered?
    ensures var h := Run(s, events).outcomes[i].call.handler;
            Armed(s, h) + RegistrationsIn(events, h) >= 1
    decreases |events|
  {
    var h := Run(s, events).outcomes[i].call.handler;
    match events[0]
    case Act(a) =>
      ApplyArmed(s, a, h);
      DeliveryNeedsRegistration(Apply(s, a), events[1..], i);
    case Tick(ts, nested, throws) =>
      var f := Fire(s, ts, nested, throws);
      var rest := Run(f.state, events[1..]);
      if i > 0 {
        assert ([f.outcome] + rest.outcomes)[i] == rest.outcomes[i - 1];
        FireArmed(s, ts, nested, throws, h);
        DeliveryNeedsRegistration(f.state, events[1..], i - 1);
      }
    case Wait(t) =>
      DeliveryNeedsRegistration(Advance(s, t), events[1..], i);
  }

  /** No stale handler: when no function is in the success slot and the run
      registers none, no delivery calls anything, however many backend calls
      are made. In particular after a delivery has emptied the slots, calls
      made without registering again call nothing. */
  lemma NoRegistrationNoDelivery(s: Bridge, events: seq<Event>)
    requires !s.success.Fn?
    requires forall h: HandlerId :: RegistrationsIn(events, h) == 0
    ensures forall i | 0 <= i < |Run(s, events).outcomes| :: !Run(s, events).outcomes[i].Delivered?
  {
    var r := Run(s, events);
    forall i | 0 <= i < |r.outcomes| ensures !r.outcomes[i].Delivered? {
      if r.outcomes[i].Delivered? {
        DeliveryNeedsRegistration(s, events, i);
      }
    }
  }

  // ---------------------------------------------------------------------
  // The failure callback is never called.

  /** `a` hands function `h` to the mock as something it may call: as the
      success callback or as the on-load callback. */
  predicate Grants(a: Action, h: HandlerId) {
    RegistersSuccess(a, h) || a == SetOnLoadCallback(h)
  }

  predicate EventGrants(e: Event, h: HandlerId) {
    match e
    case Act(a) => Grants(a, h)
    case Tick(_, nested, _) => exists i | 0 <= i < |nested| :: Grants(nested[i], h)
    case Wait(_) => false
  }

  /** The mock holds `h` as something it may call later. */
  predicate Offers(s: Bridge, h: HandlerId) {
    s.success == Fn(h) || exists t | t in s.timers :: t.task == OnLoad(h)
  }

  predicate Calls(o: Outcome, h: HandlerId) {
    (o.Delivered? || o.LoadFired?) && o.call.handler == h
  }

  lemma ApplyNoOffer(s: Bridge, a: Action, h: HandlerId)
    requires !Offers(s, h) && !Grants(a, h)
    ensures !Offers(Apply(s, a), h)
  {
    var r := Apply(s, a);
    forall t | t in r.timers ensures t.task != OnLoad(h) {
      assert t in multiset(r.timers);
      if t !in multiset(s.timers) {
        assert a.SetOnLoadCallback? ==> t.task == OnLoad(a.callback);
      }
    }
  }

  lemma {:induction false} ApplyAllNoOffer(s: Bridge, acts: seq<Action>, h: HandlerId)
    requires !Offers(s, h)
    requires forall i | 0 <= i < |acts| :: !Grants(acts[i], h)
    ensures !Offers(ApplyAll(s, acts), h)
    decreases |acts|
  {
    if acts != [] {
      ApplyAllNoOffer(s, acts[..|acts| - 1], h);
      ApplyNoOffer(ApplyAll(s, acts[..|acts| - 1]), acts[|acts| - 1], h);
    }
  }

  lemma FireNoOffer(s: Bridge, ts: string, nested: seq<Action>, throws: bool, h: HandlerId)
    requires !Offers(s, h)
    requires forall i | 0 <= i < |nested| :: !Grants(nested[i], h)
    ensures !Calls(Fire(s, ts, nested, throws).outcome, h)
    ensures !Offers(Fire(s, ts, nested, throws).state, h)
  {
    if s.timers != [] {
      assert s.timers[0] in s.timers;
      var popped := s.(now := s.timers[0].due, timers := s.timers[1..]);
      assert !Offers(popped, h) by {
        forall t | t in popped.timers ensures t.task != OnLoad(h) {
          assert t in s.timers;
        }
      }
      ApplyAllNoOffer(popped, nested, h);
    }
  }

  /** The failure callback is only stored and cleared, never called: a
      function the mock does not hold and that a run never hands over as
      success or on-load callback (passing it to `withFailureHandler` any
      number of times) is called by no timer of that run. */
  lemma {:induction false} FailureHandlerNeverCalled(s: Bridge, events: seq<Event>, h: HandlerId)
    requires !Offers(s, h)
    requires forall i | 0 <= i < |events| :: !EventGrants(events[i], h)
    ensures forall i | 0 <= i < |Run(s, events).outcomes| :: !Calls(Run(s, events).outcomes[i], h)
    decreases |events|
  {
    if events != [] {
      assert !EventGrants(events[0], h);
      assert forall i | 0 <= i < |events[1..]| :: !EventGrants(events[1..][i], h) by {
        forall i | 0 <= i < |events[1..]| ensures !EventGrants(events[1..][i], h) {
          assert events[1..][i] == events[i + 1];
        }
      }
      match events[0]
      case Act(a) =>
        ApplyNoOffer(s, a, h);
        FailureHandlerNeverCalled(Apply(s, a), events[1..], h);
      case Tick(ts, nested, throws) =>
        FireNoOffer(s, ts, nested, throws, h);
        var f := Fire(s, ts, nested, throws);
        FailureHandlerNeverCalled(f.state, events[1..], h);
      case Wait(t) =>
        assert Advance(s, t).success == s.success && Advance(s, t).timers == s.timers;
        FailureHandlerNeverCalled(Advance(s, t), events[1..], h);
    }
  }

  /** Whatever the failure slot holds changes nothing a run does: the same
      timers fire with the same outcomes, and the final states differ at most
      in the failure slot. */
  lemma FailureSlotIrrelevant(s: Bridge, events: seq<Event>, v: Value)
    ensures Run(s.(failure := v), events).outcomes == Run(s, events).outcomes
    ensures Run(s.(failure := v), events).state.(failure := Null) == Run(s, events).state.(failure := Null)
  {
    RunIgnoresFailure(s.(failure := v), s, events);
  }

  lemma ApplyIgnoresFailure(s1: Bridge, s2: Bridge, a: Action)
    requires s1.(failure := Null) == s2.(failure := Null)
    ensures Apply(s1, a).(failure := Null) == Apply(s2, a).(failure := Null)
  {
    assert s1.success == s2.success && s1.last == s2.last && s1.now == s2.now && s1.timers == s2.timers;
    match a
    case RunCall(prop, args) =>
      match Resolve(prop) {
        case RegisterSuccess =>
          assert Apply(s1, a) == s1.(success := FirstArg(args));
          assert Apply(s2, a) == s2.(success := FirstArg(args));
        case RegisterFailure =>
          assert Apply(s1, a) == s1.(failure := FirstArg(args));
          assert Apply(s2, a) == s2.(failure := FirstArg(args));
        case BackendFunction(name) =>
          var t := Timer(s1.now + DeliveryDelay, Deliver);
          assert Apply(s1, a) == s1.(last := name, timers := Schedule(s1.timers, t));
          assert Apply(s2, a) == s2.(last := name, timers := Schedule(s2.timers, t));
      }
    case SetOnLoadCallback(cb) =>
      var t := Timer(s1.now + OnLoadDelay, OnLoad(cb));
      assert Apply(s1, a) == s1.(timers := Schedule(s1.timers, t));
      assert Apply(s2, a) == s2.(timers := Schedule(s2.timers, t));
    case LoadCharts =>
  }

  lemma {:induction false} ApplyAllIgnoresFailure(s1: Bridge, s2: Bridge, acts: seq<Action>)
    requires s1.(failure := Null) == s2.(failure := Null)
    ensures ApplyAll(s1, acts).(failure := Null) == ApplyAll(s2, acts).(failure := Null)
    decreases |acts|
  {
    if acts != [] {
      ApplyAllIgnoresFailure(s1, s2, acts[..|acts| - 1]);
      ApplyIgnoresFailure(ApplyAll(s1, acts[..|acts| - 1]), ApplyAll(s2, acts[..|acts| - 1]), acts[|acts| - 1]);
    }
  }

  lemma FireIgnoresFailure(s1: Bridge, s2: Bridge, ts: string, nested: seq<Action>, throws: bool)
    requires s1.(failure := Null) == s2.(failure := Null)
    ensures Fire(s1, ts, nested, throws).outcome == Fire(s2, ts, nested, throws).outcome
    ensures Fire(s1, ts, nested, throws).state.(failure := Null) ==
            Fire(s2, ts, nested, throws).state.(failure := Null)
  {
    assert s1.timers == s2.timers && s1.success == s2.success && s1.last == s2.last && s1.now == s2.now;
    if s1.timers != [] {
      var p1 := s1.(now := s1.timers[0].due, timers := s1.timers[1..]);
      var p2 := s2.(now := s2.timers[0].due, timers := s2.timers[1..]);
      ApplyAllIgnoresFailure(p1, p2, nested);
    }
  }

  lemma {:induction false} RunIgnoresFailure(s1: Bridge, s2: Bridge, events: seq<Event>)
    requires s1.(failure := Null) == s2.(failure := Null)
    ensures Run(s1, events).outcomes == Run(s2, events).outcomes
    ensures Run(s1, events).state.(failure := Null) == Run(s2, events).state.(failure := Null)
    decreases |events|
  {
    if events != [] {
      match events[0]
      case Act(a) =>
        ApplyIgnoresFailure(s1, s2, a);
        RunIgnoresFailure(Apply(s1, a), Apply(s2, a), events[1..]);
      case Tick(ts, nested, throws) =>
        FireIgnoresFailure(s1, s2, ts, nested, throws);
        RunIgnoresFailure(Fire(s1, ts, nested, throws).state, Fire(s2, ts, nested, throws).state, events[1..]);
      case Wait(t) =>
        assert s1.now == s2.now && s1.timers == s2.timers;
        RunIgnoresFailure(Advance(s1, t), Advance(s2, t), events[1..]);
    }
  }

  // ---------------------------------------------------------------------
  // Arguments, the on-load callback, the timer invariant.

  /** A backend call's arguments play no part: only its name does. */
  lemma ArgumentsIgnored(s: Bridge, name: string, args1: seq<Value>, args2: seq<Value>)
    requires !IsRegistration(name)
    ensures Apply(s, RunCall(name, args1)) == Apply(s, RunCall(name, args2))
  {
  }

  /** `setOnLoadCallback` runs the callback once, 100 ms later, with no
      arguments; when the callback makes no calls nothing is left pending. */
  lemma OnLoadRunsOnce(s: Bridge, cb: HandlerId, ts: string, ts': string)
    requires s.timers == []
    ensures var f := Fire(Apply(s, SetOnLoadCallback(cb)), ts, [], false);
            f.outcome == LoadFired(Invocation(cb, [])) &&
            f.state.now == s.now + OnLoadDelay &&
            Fire(f.state, ts', [], false).outcome == Idle
  {
    assert Apply(s, SetOnLoadCallback(cb)).timers == [Timer(s.now + OnLoadDelay, OnLoad(cb))];
  }

  /** Timers fire in due-time order, however actions and waits interleave:
      register `cb` on load, let `d` ms pass, call a backend function, then
      fire both timers. The delivery comes first exactly when it is due
      before the on-load timer; when both are due together the on-load
      timer, scheduled first, fires first. */
  lemma WaitOrdersTimers(s: Bridge, cb: HandlerId, d: nat, h: HandlerId, name: string,
                         args: seq<Value>, ts1: string, ts2: string)
    requires s.timers == [] && s.success == Fn(h) && !IsRegistration(name)
    requires d <= OnLoadDelay
    ensures var events := [Act(SetOnLoadCallback(cb)), Wait(s.now + d), Act(RunCall(name, args)),
                           Tick(ts1, [], false), Tick(ts2, [], false)];
            var load := LoadFired(Invocation(cb, []));
            Run(s, events).outcomes ==
              if d + DeliveryDelay < OnLoadDelay
              then [Delivered(Invocation(h, [Fixture(name, ts1)])), load]
              else [load, Delivered(Invocation(h, [Fixture(name, ts2)]))]
  {
    var ticks := [Tick(ts1, [], false), Tick(ts2, [], false)];
    assert [Act(SetOnLoadCallback(cb)), Wait(s.now + d), Act(RunCall(name, args)),
            Tick(ts1, [], false), Tick(ts2, [], false)] ==
           [Act(SetOnLoadCallback(cb)), Wait(s.now + d), Act(RunCall(name, args))] + ticks;
    var s3 := ScenarioQueue(s, cb, d, name, args, ticks);
    RunTwoTicks(s3, ts1, ts2);
    if d + DeliveryDelay < OnLoadDelay {
      DeliveryThenLoad(s3, h, cb, ts1, ts2);
    } else {
      LoadThenDelivery(s3, h, cb, ts1, ts2);
    }
  }

  /** The state `WaitOrdersTimers` fires from. */
  lemma ScenarioQueue(s: Bridge, cb: HandlerId, d: nat, name: string, args: seq<Value>,
                      ticks: seq<Event>) returns (s3: Bridge)
    requires s.timers == [] && !IsRegistration(name)
    requires d <= OnLoadDelay
    ensures var onLoad := Timer(s.now + OnLoadDelay, OnLoad(cb));
            var delivery := Timer(s.now + d + DeliveryDelay, Deliver);
            s3.success == s.success && s3.last == name &&
            s3.timers == if d + DeliveryDelay < OnLoadDelay then [delivery, onLoad] else [onLoad, delivery]
    ensures Run(s, [Act(SetOnLoadCallback(cb)), Wait(s.now + d), Act(RunCall(name, args))] + ticks) ==
            Run(s3, ticks)
  {
    s3 := Apply(Advance(Apply(s, SetOnLoadCallback(cb)), s.now + d), RunCall(name, args));
    WaitSchedulesBoth(s, cb, d, name, args);
    RunSteps(s, SetOnLoadCallback(cb), s.now + d, RunCall(name, args), ticks);
  }

  /** An action, a wait and an action ahead of the rest of a run. */
  lemma RunSteps(s: Bridge, a1: Action, t: nat, a2: Action, rest: seq<Event>)
    ensures Run(s, [Act(a1), Wait(t), Act(a2)] + rest) == Run(Apply(Advance(Apply(s, a1), t), a2), rest)
  {
    var events := [Act(a1), Wait(t), Act(a2)] + rest;
    var s1 := Apply(s, a1);
    var s2 := Advance(s1, t);
    assert events[0] == Act(a1) && events[1..] == [Wait(t), Act(a2)] + rest;
    assert Run(s, events) == Run(s1, events[1..]);
    assert events[1..][0] == Wait(t) && events[1..][1..] == [Act(a2)] + rest;
    assert Run(s1, events[1..]) == Run(s2, [Act(a2)] + rest);
    assert ([Act(a2)] + rest)[0] == Act(a2) && ([Act(a2)] + rest)[1..] == rest;
  }

  /** Two firings in a row, with callbacks that do nothing and return. */
  lemma RunTwoTicks(s: Bridge, ts1: string, ts2: string)
    ensures var f1 := Fire(s, ts1, [], false);
            Run(s, [Tick(ts1, [], false), Tick(ts2, [], false)]).outcomes ==
              [f1.outcome, Fire(f1.state, ts2, [], false).outcome]
  {
    var ticks := [Tick(ts1, [], false), Tick(ts2, [], false)];
    var f1 := Fire(s, ts1, [], false);
    assert ticks[1..] == [Tick(ts2, [], false)];
    assert Run(f1.state, ticks[1..]).outcomes == [Fire(f1.state, ts2, [], false).outcome];
  }

  lemma DeliveryThenLoad(s: Bridge, h: HandlerId, cb: HandlerId, ts1: string, ts2: string)
    requires s.success == Fn(h) && |s.timers| == 2
    requires s.timers[0].task == Deliver && s.timers[1].task == OnLoad(cb)
    ensures var f1 := Fire(s, ts1, [], false);
            f1.outcome == Delivered(Invocation(h, [Fixture(s.last, ts1)])) &&
            Fire(f1.state, ts2, [], false).outcome == LoadFired(Invocation(cb, []))
  {
    assert Fire(s, ts1, [], false).state.timers == [s.timers[1]];
  }

  lemma LoadThenDelivery(s: Bridge, h: HandlerId, cb: HandlerId, ts1: string, ts2: string)
    requires s.success == Fn(h) && |s.timers| == 2
    requires s.timers[0].task == OnLoad(cb) && s.timers[1].task == Deliver
    ensures var f1 := Fire(s, ts1, [], false);
            f1.outcome == LoadFired(Invocation(cb, [])) &&
            Fire(f1.state, ts2, [], false).outcome == Delivered(Invocation(h, [Fixture(s.last, ts2)]))
  {
    var f1 := Fire(s, ts1, [], false);
    assert f1.state.timers == [s.timers[1]] && f1.state.success == Fn(h) && f1.state.last == s.last;
  }

  /** The queue that `WaitOrdersTimers` fires. */
  lemma WaitSchedulesBoth(s: Bridge, cb: HandlerId, d: nat, name: string, args: seq<Value>)
    requires s.timers == [] && !IsRegistration(name)
    requires d <= OnLoadDelay
    ensures var s3 := Apply(Advance(Apply(s, SetOnLoadCallback(cb)), s.now + d), RunCall(name, args));
            var onLoad := Timer(s.now + OnLoadDelay, OnLoad(cb));
            var delivery := Timer(s.now + d + DeliveryDelay, Deliver);
            s3.success == s.success && s3.last == name && s3.now == s.now + d &&
            s3.timers == if d + DeliveryDelay < OnLoadDelay then [delivery, onLoad] else [onLoad, delivery]
  {
    var onLoad := Timer(s.now + OnLoadDelay, OnLoad(cb));
    var delivery := Timer(s.now + d + DeliveryDelay, Deliver);
    var s2 := s.(now := s.now + d, timers := [onLoad]);
    WaitAfterOnLoad(s, cb, d);
    CallSchedulesDelivery(s2, name, args);
    assert Timer(s2.now + DeliveryDelay, Deliver) == delivery;
    var s3 := s2.(last := name, timers := Schedule([onLoad], delivery));
    assert Apply(Advance(Apply(s, SetOnLoadCallback(cb)), s.now + d), RunCall(name, args)) == s3;
    ScheduleBesideOne(onLoad, delivery);
  }

  /** Scheduling beside a single timer: ahead of it when due strictly
      earlier, behind it otherwise. */
  lemma ScheduleBesideOne<T>(x: Timer<T>, t: Timer<T>)
    ensures Schedule([x], t) == if t.due < x.due then [t, x] else [x, t]
  {
    if t.due < x.due {
      assert SlotFor([x], t) == 0;
    } else {
      assert SlotFor([x], t) == 1;
    }
  }

  lemma WaitAfterOnLoad(s: Bridge, cb: HandlerId, d: nat)
    requires s.timers == [] && d <= OnLoadDelay
    ensures Advance(Apply(s, SetOnLoadCallback(cb)), s.now + d) ==
            s.(now := s.now + d, timers := [Timer(s.now + OnLoadDelay, OnLoad(cb))])
  {
    assert Apply(s, SetOnLoadCallback(cb)) == s.(timers := [Timer(s.now + OnLoadDelay, OnLoad(cb))]);
  }

  lemma CallSchedulesDelivery(s: Bridge, name: string, args: seq<Value>)
    requires !IsRegistration(name)
    ensures Apply(s, RunCall(name, args)) ==
            s.(last := name, timers := Schedule(s.timers, Timer(s.now + DeliveryDelay, Deliver)))
  {
    assert Resolve(name) == BackendFunction(name);
  }

  /** Every run keeps the timers in firing order and never winds the clock
      back. */
  lemma {:induction false} RunValid(s: Bridge, events: seq<Event>)
    requires WellTimed(s)
    ensures WellTimed(Run(s, events).state)
    ensures s.now <= Run(s, events).state.now
    decreases |events|
  {
    if events != [] {
      match events[0]
      case Act(a) =>
        ApplyValid(s, a);
        RunValid(Apply(s, a), events[1..]);
      case Tick(ts, nested, throws) =>
        FireValid(s, ts, nested, throws);
        RunValid(Fire(s, ts, nested, throws).state, events[1..]);
      case Wait(t) =>
        AdvanceValid(s, t);
        RunValid(Advance(s, t), events[1..]);
    }
  }
}

=== FILE: js_value.dfy ===
/** JavaScript values as the mocks see them: the payloads they hand to
    callbacks, the arguments they receive, and the callbacks themselves.
    A function value is known only by an opaque identity. */
module JsValue {

  datatype Option<+T> = None | Some(value: T)

  /** The two handler-registration members of `google.script.run`, and the
      e-mail address both mocks report for the signed-in user. */
  const SuccessRegistration: string := "withSuccessHandler"
  const FailureRegistration: string := "withFailureHandler"
  const TestEmail: string := "test@example.com"

  /** Identity of a JavaScript function object (a callback). */
  type HandlerId = nat

  /** A JavaScript value. Numbers are restricted to integers, which is all
      the fixtures use; objects are maps from property name to value. */
  datatype Value =
    | Undefined
    | Null
    | Bool(b: bool)
    | Num(n: int)
    | Str(s: string)
    | Arr(items: seq<Value>)
    | Obj(fields: map<string, Value>)
    | Fn(id: HandlerId)

  /** JavaScript truthiness (`if (v)`): undefined, null, false, 0 and the
      empty string are falsy, everything else is truthy. */
  predicate Truthy(v: Value) {
    match v
    case Undefined => false
    case Null => false
    case Bool(b) => b
    case Num(n) => n != 0
    case Str(s) => s != ""
    case Arr(_) => true
    case Obj(_) => true
    case Fn(_) => true
  }

  /** The first argument of a call, or undefined when the call passed none. */
  function FirstArg(args: seq<Value>): Value {
    if |args| == 0 then Undefined else args[0]
  }

  /** One call of a callback, with the arguments it received. */
  datatype Invocation = Invocation(handler: HandlerId, args: seq<Value>)

  /** `o[key]`: the property, or undefined when `o` is an object without it. */
  function Get(o: Value, key: string): Value {
    if o.Obj? && key in o.fields then o.fields[key] else Undefined
  }

  /** An all-zero aggregate: zero counts, empty lists, and objects whose
      every property is again all-zero (so in particular empty maps). */
  predicate AllZero(v: Value)
    decreases v
  {
    match v
    case Num(n) => n == 0
    case Arr(items) => items == []
    case Obj(fields) => forall k | k in fields :: AllZero(fields[k])
    case _ => false
  }
}

=== FILE: mock_agreement.dfy ===
/** The two stand-ins for `google` side by side: the synchronous one of
    verify_tabs.js and the asynchronous one of mock_backend.js agree on
    what a page receives wherever both define a behaviour, and differ
    exactly where their payload tables differ. */
module MockAgreement {
  import opened JsValue
  import opened BackendFixtures
  import opened MockBackend
  import Tabs = TabsMock

  /** The payloads the two mocks share. `checkUserAccess` and
      `getUpcomingDues` answer alike. The synchronous `getEmployeeData`
      answer is the asynchronous one without `canApprove` and
      `dropdownListData`. The other three synchronous methods have no
      fixture in the asynchronous mock, which answers them with undefined. */
  lemma PayloadsAgree(ts: string)
    ensures Tabs.Payload("checkUserAccess", ts) == Fixture("checkUserAccess", ts)
    ensures Tabs.Payload("getUpcomingDues", ts) == Fixture("getUpcomingDues", ts)
    ensures Tabs.Payload("getEmployeeData", ts).fields ==
              Fixture("getEmployeeData", ts).fields - {"canApprove", "dropdownListData"}
    ensures Fixture("getListsForDropdowns", ts) == Undefined
    ensures Fixture("getAnalyticsData", ts) == Undefined
    ensures Fixture("getResignationData", ts) == Undefined
  {
    var sync := Tabs.Payload("getEmployeeData", ts).fields;
    var async := Fixture("getEmployeeData", ts).fields - {"canApprove", "dropdownListData"};
    assert sync.Keys == async.Keys;
  }

  /** Registering `h`, then any failure handler, then calling a method both
      mocks answer alike: the synchronous chain calls `h` at once with the
      very call the asynchronous mock makes when its delivery fires. */
  lemma ChainAgreesWithDelivery(s: Bridge, h: HandlerId, f: Value, name: string, ts: string)
    requires s.timers == []
    requires name == "checkUserAccess" || name == "getUpcomingDues"
    ensures var s3 := Apply(Apply(Apply(s, RunCall(SuccessRegistration, [Fn(h)])),
                                  RunCall(FailureRegistration, [f])),
                            RunCall(name, []));
            var chain := Tabs.Chain(Tabs.RunObject, [Tabs.Call(SuccessRegistration, [Fn(h)]),
                                                     Tabs.Call(FailureRegistration, [f]),
                                                     Tabs.Call(name, [])], ts);
            var fired := Fire(s3, ts, [], false).outcome;
            !chain.threw && fired.Delivered? && chain.calls == [fired.call]
  {
    var s1 := Apply(s, RunCall(SuccessRegistration, [Fn(h)]));
    var s2 := Apply(s1, RunCall(FailureRegistration, [f]));
    var s3 := Apply(s2, RunCall(name, []));
    assert s2.timers == [] && s2.success == Fn(h);
    assert s3.timers == [TimerQueue.Timer(s.now + DeliveryDelay, Deliver)];
    assert s3.success == Fn(h) && s3.last == name;
    Tabs.ChainCallsOnlyInOrder([Tabs.Call(SuccessRegistration, [Fn(h)]),
                                Tabs.Call(FailureRegistration, [f]),
                                Tabs.Call(name, [])], ts);
    PayloadsAgree(ts);
  }

  /** `setOnLoadCallback`: for a function, the synchronous mock makes at
      once the very call the asynchronous one makes when its on-load timer
      fires; anything else the synchronous mock ignores. */
  lemma OnLoadAgrees(s: Bridge, cb: Value, ts: string)
    requires s.timers == []
    ensures !cb.Fn? ==> Tabs.SetOnLoadCallback(cb) == []
    ensures cb.Fn? ==>
              Tabs.SetOnLoadCallback(cb) ==
                [Fire(Apply(s, SetOnLoadCallback(cb.id)), ts, [], false).outcome.call]
  {
    if cb.Fn? {
      assert Apply(s, SetOnLoadCallback(cb.id)).timers ==
             [TimerQueue.Timer(s.now + OnLoadDelay, OnLoad(cb.id))];
    }
  }
}

=== FILE: mock_backend.dfy ===
/** The asynchronous `google` stand-in of mock_backend.js.
    `google.script.run` is a closure over three variables (the success
    callback, the failure callback and the name of the backend function last
    called) behind a proxy: the two registration names store a callback and
    return the proxy, every other property is a backend call that records its
    name and schedules one delivery 50 ms later. `google.charts` loads nothing
    and runs the on-load callback 100 ms after it is registered.

    The host's timers are an explicit queue (module TimerQueue) and the clock
    advances only when a timer fires. What a callback does when it runs is
    code outside the mock; the calls it makes back into the mock are given as
    a parameter. */
module MockBackend {
  import opened JsValue
  import opened TimerQueue
  import opened BackendFixtures

  const DeliveryDelay: nat := 50
  const OnLoadDelay: nat := 100

  /** What a pending timer will do when it fires. A delivery carries nothing
      of the call that scheduled it: it reads the closure when it fires. */
  datatype Task = Deliver | OnLoad(callback: HandlerId)

  /** One synchronous use of the mock. */
  datatype Action =
    | RunCall(prop: string, args: seq<Value>)    // google.script.run[prop](...args)
    | SetOnLoadCallback(callback: HandlerId)     // google.charts.setOnLoadCallback(callback)
    | LoadCharts                                 // google.charts.load(...)

  /** The closure variables of `run` plus the host's clock and timer queue. */
  datatype Bridge = Bridge(
    success: Value,
    failure: Value,
    last: string,
    now: nat,
    timers: seq<Timer<Task>>)

  /** What firing the next timer did. */
  datatype Outcome =
    | Idle                          // no timer was pending
    | Quiet                         // a delivery found no success callback
    | Delivered(call: Invocation)   // a delivery called the success callback
    | LoadFired(call: Invocation)   // the on-load callback ran
    | TypeError                     // the success slot held a truthy non-function

  /** What the proxy's `get` trap hands out for a property name. */
  datatype Member = RegisterSuccess | RegisterFailure | BackendFunction(name: string)

  predicate IsRegistration(prop: string) {
    prop == SuccessRegistration || prop == FailureRegistration
  }

  /** The closure when the page loads: no callbacks, no call yet. */
  const Initial: Bridge := Bridge(Null, Null, "", 0, [])

  /** Timers are in firing order and none is due before the clock. */
  ghost predicate WellTimed(s: Bridge) {
    Sorted(s.timers) && NotBefore(s.timers, s.now)
  }

  /** The proxy's `get` trap: the two registration names give the runner's
      own methods, any other name is a backend function of that name. */
  function Resolve(prop: string): Member {
    if prop == SuccessRegistration then RegisterSuccess
    else if prop == FailureRegistration then RegisterFailure
    else BackendFunction(prop)
  }

  /** One synchronous action. A registration overwrites its own slot and
      nothing else; a backend call ignores its arguments, records its name and
      adds exactly one delivery; `setOnLoadCallback` adds exactly one on-load
      timer; `load` changes nothing. No action moves the clock. */
  function Apply(s: Bridge, a: Action): (r: Bridge)
    ensures r.now == s.now
    ensures a.RunCall? && a.prop == SuccessRegistration ==>
              r == s.(success := FirstArg(a.args))
    ensures a.RunCall? && a.prop == FailureRegistration ==>
              r == s.(failure := FirstArg(a.args))
    ensures a.RunCall? && !IsRegistration(a.prop) ==>
              r.success == s.success && r.failure == s.failure && r.last == a.prop &&
              multiset(r.timers) == multiset(s.timers) + multiset{Timer(s.now + DeliveryDelay, Deliver)}
    ensures a.SetOnLoadCallback? ==>
              r.success == s.success && r.failure == s.failure && r.last == s.last &&
              multiset(r.timers) == multiset(s.timers) + multiset{Timer(s.now + OnLoadDelay, OnLoad(a.callback))}
    ensures a.LoadCharts? ==> r == s
  {
    match a
    case RunCall(prop, args) =>
      (match Resolve(prop)
       case RegisterSuccess => s.(success := FirstArg(args))
       case RegisterFailure => s.(failure := FirstArg(args))
       case BackendFunction(name) =>
         ScheduleMultiset(s.timers, Timer(s.now + DeliveryDelay, Deliver));
         s.(last := name, timers := Schedule(s.timers, Timer(s.now + DeliveryDelay, Deliver))))
    case SetOnLoadCallback(cb) =>
      ScheduleMultiset(s.timers, Timer(s.now + OnLoadDelay, OnLoad(cb)));
      s.(timers := Schedule(s.timers, Timer(s.now + OnLoadDelay, OnLoad(cb))))
    case LoadCharts => s
  }

  /** A run of synchronous actions, first to last. */
  function ApplyAll(s: Bridge, acts: seq<Action>): (r: Bridge)
    ensures r.now == s.now
    decreases |acts|
  {
    if acts == [] then s else Apply(ApplyAll(s, acts[..|acts| - 1]), acts[|acts| - 1])
  }

  /** The state once the earliest timer has left the queue: the clock shows
      its due time. */
  function Popped(s: Bridge): Bridge
    requires s.timers != []
  {
    s.(now := s.timers[0].due, timers := s.timers[1..])
  }

  /** Result of firing the next timer. */
  datatype Fired = Fired(state: Bridge, outcome: Outcome)

  /** Fire the earliest timer. `timestamp` is the clock string a fixture
      reads; `nested` is what the callback that runs does to the mock before
      it returns. A delivery looks at the success slot as it is NOW and picks
      the fixture of the name called LAST; it calls the callback once if the
      slot holds a function, and then empties both slots, also wiping any
      registration the callback made. A truthy non-function in the slot
      throws before the slots are emptied, and so does a success callback
      that throws (`throws`): the reset is not in a `finally`, so both slots
      keep what they held, and a later delivery calls the same callback
      again. The failure slot is never called. */
  function Fire(s: Bridge, timestamp: string, nested: seq<Action>, throws: bool): (r: Fired)
    ensures s.timers == [] ==> r == Fired(s, Idle)
    ensures s.timers != [] ==> r.state.now == s.timers[0].due && r.outcome != Idle
    ensures s.timers != [] && s.timers[0].task.OnLoad? ==>
              r.outcome == LoadFired(Invocation(s.timers[0].task.callback, []))
    ensures s.timers != [] && s.timers[0].task.Deliver? ==>
              (r.outcome.Delivered? <==> s.success.Fn?) &&
              (r.outcome.Delivered? ==>
                 r.outcome.call == Invocation(s.success.id, [Fixture(s.last, timestamp)])) &&
              (r.outcome.TypeError? <==> Truthy(s.success) && !s.success.Fn?) &&
              (!r.outcome.TypeError? && !(r.outcome.Delivered? && throws) ==>
                 r.state.success == Null && r.state.failure == Null)
    ensures r.outcome.Delivered? ==> s.success == Fn(r.outcome.call.handler)
    ensures r.outcome.LoadFired? ==> s.timers[0].task == OnLoad(r.outcome.call.handler)
    ensures s.timers != [] ==>
              var popped := Popped(s);
              (r.outcome.LoadFired? ==> r.state == ApplyAll(popped, nested)) &&
              (r.outcome.Quiet? ==> r.state == popped.(success := Null, failure := Null)) &&
              (r.outcome.Delivered? && !throws ==>
                 r.state == ApplyAll(popped, nested).(success := Null, failure := Null)) &&
              (r.outcome.Delivered? && throws ==> r.state == ApplyAll(popped, nested)) &&
              (r.outcome.TypeError? ==> r.state == popped)
    ensures s.timers != [] && nested == [] ==>
              r.state.timers == s.timers[1..] && r.state.last == s.last
    ensures r.outcome.LoadFired? && nested == [] ==>
              r.state.success == s.success && r.state.failure == s.failure
  {
    if s.timers == [] then Fired(s, Idle)
    else
      var t := s.timers[0];
      var popped := Popped(s);
      match t.task
      case OnLoad(cb) => Fired(ApplyAll(popped, nested), LoadFired(Invocation(cb, [])))
      case Deliver =>
        if !Truthy(s.success) then
          Fired(popped.(success := Null, failure := Null), Quiet)
        else if s.success.Fn? then
          var mockData := Fixture(s.last, timestamp);
          var after := ApplyAll(popped, nested);
          var call := Invocation(s.success.id, [mockData]);
          if throws then Fired(after, Delivered(call))
          else Fired(after.(success := Null, failure := Null), Delivered(call))
        else
          Fired(popped, TypeError)
  }

  /** The invariant of the timer queue survives every action. */
  lemma ApplyValid(s: Bridge, a: Action)
    requires WellTimed(s)
    ensures WellTimed(Apply(s, a))
  {
    match a
    case RunCall(prop, args) =>
      match Resolve(prop) {
        case RegisterSuccess =>
          assert Apply(s, a) == s.(success := FirstArg(args));
        case RegisterFailure =>
          assert Apply(s, a) == s.(failure := FirstArg(args));
        case BackendFunction(name) =>
          var t := Timer(s.now + DeliveryDelay, Deliver);
          assert Apply(s, a) == s.(last := name, timers := Schedule(s.timers, t));
          ScheduleSorted(s.timers, t);
          ScheduleNotBefore(s.timers, t, s.now);
      }
    case SetOnLoadCallback(cb) =>
      var t := Timer(s.now + OnLoadDelay, OnLoad(cb));
      assert Apply(s, a) == s.(timers := Schedule(s.timers, t));
      ScheduleSorted(s.timers, t);
      ScheduleNotBefore(s.timers, t, s.now);
    case LoadCharts =>
  }

  lemma {:induction false} ApplyAllValid(s: Bridge, acts: seq<Action>)
    requires WellTimed(s)
    ensures WellTimed(ApplyAll(s, acts))
    decreases |acts|
  {
    if acts != [] {
      ApplyAllValid(s, acts[..|acts| - 1]);
      ApplyValid(ApplyAll(s, acts[..|acts| - 1]), acts[|acts| - 1]);
    }
  }

  /** Taking the earliest timer off a valid queue, with the clock moved to
      its due time, leaves a valid queue. */
  lemma PopValid(s: Bridge)
    requires WellTimed(s) && s.timers != []
    ensures WellTimed(Popped(s))
  {
    var popped := Popped(s);
    forall i | 0 <= i < |popped.timers| ensures s.timers[0].due <= popped.timers[i].due {
      assert popped.timers[i] == s.timers[i + 1];
    }
  }

  /** Firing a timer keeps the queue in order and never moves the clock
      backwards, so no pending timer is ever overdue. */
  lemma FireValid(s: Bridge, timestamp: string, nested: seq<Action>, throws: bool)
    requires WellTimed(s)
    ensures WellTimed(Fire(s, timestamp, nested, throws).state)
    ensures s.now <= Fire(s, timestamp, nested, throws).state.now
  {
    if s.timers != [] {
      PopValid(s);
      ApplyAllValid(Popped(s), nested);
    }
  }

  /** Time passing on the host while no timer fires: the clock moves to
      `t`, but never backwards and never past the earliest pending timer,
      which would fire first. Nothing else changes. */
  function Advance(s: Bridge, t: nat): (r: Bridge)
    ensures r == s.(now := r.now)
    ensures s.now <= r.now
    ensures s.timers != [] && s.now <= s.timers[0].due ==> r.now <= s.timers[0].due
    ensures s.now <= t && (s.timers == [] || t <= s.timers[0].due) ==> r.now == t
  {
    var until := if s.timers != [] && s.timers[0].due < t then s.timers[0].due else t;
    s.(now := if until < s.now then s.now else until)
  }

  /** Waiting never makes a pending timer overdue. */
  lemma AdvanceValid(s: Bridge, t: nat)
    requires WellTimed(s)
    ensures WellTimed(Advance(s, t))
  {
    var r := Advance(s, t);
    forall i | 0 <= i < |s.timers| ensures r.now <= s.timers[i].due {
      assert s.timers[0].due <= s.timers[i].due;
    }
  }

  /** The mock as the page sees it: `window.google`, holding the `run`
      closure's variables and the host's timers. */
  class GoogleMock {
    var success: Value
    var failure: Value
    var last: string
    var now: nat
    var timers: seq<Timer<Task>>
    /** What each fired timer did, oldest first. */
    ghost var fired: seq<Outcome>

    function State(): Bridge
      reads this
    {
      Bridge(success, failure, last, now, timers)
    }

    /** The pending timers are in firing order and none is overdue. */
    ghost predicate Valid()
      reads this
    {
      WellTimed(State())
    }

    constructor ()
      ensures State() == Initial && fired == []
      ensures Valid()
    {
      success, failure, last := Null, Null, "";
      now, timers := 0, [];
      fired := [];
    }

    /** `run.withSuccessHandler(callback)`: overwrite the success slot and
        return the runner, for chaining. */
    method WithSuccessHandler(callback: Value) returns (r: GoogleMock)
      requires Valid()
      modifies this
      ensures Valid()
      ensures r == this
      ensures success == callback
      ensures failure == old(failure) && last == old(last) && now == old(now) && timers == old(timers)
      ensures State() == Apply(old(State()), RunCall(SuccessRegistration, [callback]))
      ensures fired == old(fired)
    {
      success := callback;
      r := this;
    }

    /** `run.withFailureHandler(callback)`: overwrite the failure slot and
        return the runner, for chaining. */
    method WithFailureHandler(callback: Value) returns (r: GoogleMock)
      requires Valid()
      modifies this
      ensures Valid()
      ensures r == this
      ensures failure == callback
      ensures success == old(success) && last == old(last) && now == old(now) && timers == old(timers)
      ensures State() == Apply(old(State()), RunCall(FailureRegistration, [callback]))
      ensures fired == old(fired)
    {
      failure := callback;
      r := this;
    }

    /** `run.<name>(...args)` for any other name: remember the name, schedule
        one delivery, return the proxy. The arguments are not used. */
    method Invoke(name: string, args: seq<Value>) returns (r: GoogleMock)
      requires !IsRegistration(name)
      requires Valid()
      modifies this
      ensures Valid()
      ensures r == this
      ensures last == name
      ensures success == old(success) && failure == old(failure) && now == old(now)
      ensures timers == Schedule(old(timers), Timer(old(now) + DeliveryDelay, Deliver))
      ensures State() == Apply(old(State()), RunCall(name, args))
      ensures fired == old(fired)
    {
      ghost var s := State();
      last := name;
      timers := Schedule(timers, Timer(now + DeliveryDelay, Deliver));
      r := this;
      assert Resolve(name) == BackendFunction(name);
      assert State() == s.(last := name, timers := Schedule(s.timers, Timer(s.now + DeliveryDelay, Deliver)));
      ApplyValid(s, RunCall(name, args));
    }

    /** `charts.setOnLoadCallback(callback)`: run it once, 100 ms from now. */
    method SetOnLoad(callback: HandlerId)
      requires Valid()
      modifies this
      ensures Valid()
      ensures success == old(success) && failure == old(failure) && last == old(last) && now == old(now)
      ensures timers == Schedule(old(timers), Timer(old(now) + OnLoadDelay, OnLoad(callback)))
      ensures State() == Apply(old(State()), SetOnLoadCallback(callback))
      ensures fired == old(fired)
    {
      ghost var s := State();
      ghost var t := Timer(s.now + OnLoadDelay, OnLoad(callback));
      assert Apply(s, SetOnLoadCallback(callback)) == s.(timers := Schedule(s.timers, t));
      ApplyValid(s, SetOnLoadCallback(callback));
      timers := Schedule(timers, Timer(now + OnLoadDelay, OnLoad(callback)));
      assert State() == s.(timers := Schedule(s.timers, t));
    }

    /** The host's clock moving on to `t` before the next timer is due. */
    method Wait(t: nat)
      requires Valid()
      modifies this
      ensures Valid()
      ensures State() == Advance(old(State()), t)
      ensures fired == old(fired)
    {
      AdvanceValid(State(), t);
      var until := if timers != [] && timers[0].due < t then timers[0].due else t;
      if now < until {
        now := until;
      }
    }

    /** One action, through the member the proxy resolves it to. */
    method Perform(a: Action)
      requires Valid()
      modifies this
      ensures Valid()
      ensures State() == Apply(old(State()), a)
      ensures fired == old(fired)
    {
      match a
      case RunCall(prop, args) =>
        match Resolve(prop) {
          case RegisterSuccess =>
            var _ := WithSuccessHandler(FirstArg(args));
          case RegisterFailure =>
            var _ := WithFailureHandler(FirstArg(args));
          case BackendFunction(name) =>
            var _ := Invoke(name, args);
        }
      case SetOnLoadCallback(cb) =>
        SetOnLoad(cb);
      case LoadCharts =>
    }

    /** The calls a running callback makes into the mock, in order. */
    method PerformAll(acts: seq<Action>)
      requires Valid()
      modifies this
      ensures Valid()
      ensures State() == ApplyAll(old(State()), acts)
      ensures fired == old(fired)
    {
      for i := 0 to |acts|
        invariant State() == ApplyAll(old(State()), acts[..i])
        invariant fired == old(fired)
        invariant Valid()
      {
        assert acts[..i + 1][..i] == acts[..i];
        Perform(acts[i]);
      }
      assert acts[..|acts|] == acts;
    }

    /** The host fires the earliest pending timer: a delivery
        (mock_backend.js:43-78) or the on-load callback. */
    method RunNextTimer(timestamp: string, nested: seq<Action>, throws: bool) returns (outcome: Outcome)
      requires Valid()
      modifies this
      ensures Valid()
      ensures Fired(State(), outcome) == Fire(old(State()), timestamp, nested, throws)
      ensures fired == old(fired) + [outcome]
    {
      if timers == [] {
        outcome := Idle;
      } else {
        var t := timers[0];
        PopValid(State());
        timers, now := timers[1..], t.due;
        match t.task
        case OnLoad(cb) =>
          outcome := LoadFired(Invocation(cb, []));
          PerformAll(nested);
        case Deliver =>
          if !Truthy(success) {
            outcome := Quiet;
            success, failure := Null, Null;
          } else if success.Fn? {
            var mockData := Fixture(last, timestamp);
            outcome := Delivered(Invocation(success.id, [mockData]));
            PerformAll(nested);
            if !throws {
              success, failure := Null, Null;
            }
          } else {
            outcome := TypeError;
          }
      }
      fired := fired + [outcome];
    }
  }
}

=== FILE: tabs_check.dfy ===
/** The fail-fast check sequence of verify_tabs.js. `check(description,
    condition)` logs PASS and goes on when the condition holds, and otherwise
    logs FAIL and exits with status 1 at once; an exception anywhere in the
    sequence is caught, logged and also ends the run with status 1. A run that
    gets through every step logs the closing line and ends with status 0.

    What the dashboard does in response to the clicks is not part of this
    model: the page as the checks observe it is an input. */
module TabsCheck {
  import opened JsValue

  /** One statement of the sequence: a check, or a statement that throws
      (reading a property of a missing element, clicking a missing element). */
  datatype Step = Check(description: string, condition: bool) | Throw

  /** What the run logs for a step it reaches. */
  datatype Outcome = Passed(description: string) | Failed(description: string) | Errored

  predicate Passes(step: Step) {
    step.Check? && step.condition
  }

  function OutcomeOf(step: Step): Outcome {
    match step
    case Check(d, c) => if c then Passed(d) else Failed(d)
    case Throw => Errored
  }

  /** Index of the first step that does not pass (a failing check or a
      throw), or the number of steps when every step passes. */
  function FirstFailure(steps: seq<Step>): (k: nat)
    ensures k <= |steps|
    ensures forall i | 0 <= i < k :: Passes(steps[i])
    ensures k < |steps| ==> !Passes(steps[k])
    decreases |steps|
  {
    if steps == [] || !Passes(steps[0]) then 0 else 1 + FirstFailure(steps[1..])
  }

  /** Fail-fast: steps after the first failure never run, so they cannot
      change where the run stops. */
  lemma {:induction false} LaterStepsIrrelevant(steps: seq<Step>, more: seq<Step>)
    requires FirstFailure(steps) < |steps|
    ensures FirstFailure(steps + more) == FirstFailure(steps)
    decreases |steps|
  {
    if Passes(steps[0]) {
      assert (steps + more)[1..] == steps[1..] + more;
      LaterStepsIrrelevant(steps[1..], more);
    }
  }

  /** Run the steps in order. The log holds one outcome per step reached: all
      of them when every step passes, otherwise those up to and including the
      first failure. `completed` says whether the closing "all tests passed"
      line is reached; the exit status is 0 exactly then, and 1 otherwise. */
  method RunChecks(steps: seq<Step>) returns (log: seq<Outcome>, status: int, completed: bool)
    ensures completed <==> FirstFailure(steps) == |steps|
    ensures status == (if completed then 0 else 1)
    ensures |log| == (if completed then |steps| else FirstFailure(steps) + 1)
    ensures forall i | 0 <= i < |log| :: log[i] == OutcomeOf(steps[i])
  {
    log := [];
    var i := 0;
    while i < |steps|
      invariant 0 <= i <= |steps|
      invariant |log| == i
      invariant forall j | 0 <= j < i :: Passes(steps[j]) && log[j] == OutcomeOf(steps[j])
    {
      log := log + [OutcomeOf(steps[i])];
      match steps[i] {
        case Check(description, condition) =>
          if !condition {
            status, completed := 1, false;  // process.exit(1) inside check
            return;
          }
        case Throw =>
          status, completed := 1, false;    // the catch block's process.exit(1)
          return;
      }
      i := i + 1;
    }
    status, completed := 0, true;
  }

  // ---------------------------------------------------------------------
  // The tab navigation sequence.

  const CardExists := "Recruitment card should exist"
  const TabAreaVisible := "Tab area should be visible after card click"
  const HomepageHidden := "Homepage should be hidden after card click"
  const ResignationTabExists := "Resignation tab should exist"
  const ResignationTabActive := "Resignation tab should have 'active' class"
  const ResignationContentVisible := "Resignation content should be visible"
  const DemographicsHidden := "Demographics content should be hidden"

  /** The page as the sequence observes it. A missing element is `None`; for
      the elements found, what the checks read after the clicks. */
  datatype Page = Page(
    recruitmentCard: bool,                  // the card whose onclick opens 'reports'/'demographics'
    tabAreaDisplay: Option<string>,         // #tab-area style.display
    homepageDisplay: Option<string>,        // #homepage-view style.display
    resignationTabActive: Option<bool>,     // #tab-resignation has class 'active'
    resignationViewActive: Option<bool>,    // #resignation-view has class 'active'
    demographicsViewActive: Option<bool>)   // #demographics-view has class 'active'

  /** A statement that reads a looked-up element: throws when the element
      is missing, and otherwise checks `holds` of what it reads. */
  function ReadCheck(description: string, found: bool, holds: bool): seq<Step> {
    if found then [Check(description, holds)] else [Throw]
  }

  function CardSteps(p: Page): seq<Step> {
    [Check(CardExists, p.recruitmentCard)] + (if p.recruitmentCard then [] else [Throw])
  }

  function ResignationTabSteps(p: Page): seq<Step> {
    match p.resignationTabActive
    case None => [Check(ResignationTabExists, false), Throw]
    case Some(a) => [Check(ResignationTabExists, true), Check(ResignationTabActive, a)]
  }

  /** The try block, statement by statement. Reading or clicking a missing
      element throws. */
  function TabSteps(p: Page): seq<Step> {
    CardSteps(p) +
    ReadCheck(TabAreaVisible, p.tabAreaDisplay.Some?, p.tabAreaDisplay == Some("block")) +
    ReadCheck(HomepageHidden, p.homepageDisplay.Some?, p.homepageDisplay == Some("none")) +
    ResignationTabSteps(p) +
    ReadCheck(ResignationContentVisible, p.resignationViewActive.Some?, p.resignationViewActive == Some(true)) +
    ReadCheck(DemographicsHidden, p.demographicsViewActive.Some?, p.demographicsViewActive == Some(false))
  }

  /** What the page must show for every check to pass. */
  predicate TabsWork(p: Page) {
    p.recruitmentCard &&
    p.tabAreaDisplay == Some("block") &&
    p.homepageDisplay == Some("none") &&
    p.resignationTabActive == Some(true) &&
    p.resignationViewActive == Some(true) &&
    p.demographicsViewActive == Some(false)
  }

  predicate AllPass(steps: seq<Step>) {
    forall i | 0 <= i < |steps| :: Passes(steps[i])
  }

  lemma AllPassConcat(a: seq<Step>, b: seq<Step>)
    ensures AllPass(a + b) <==> AllPass(a) && AllPass(b)
  {
    if AllPass(a + b) {
      forall i | 0 <= i < |a| ensures Passes(a[i]) {
        assert (a + b)[i] == a[i];
      }
      forall i | 0 <= i < |b| ensures Passes(b[i]) {
        assert (a + b)[|a| + i] == b[i];
      }
    }
    if AllPass(a) && AllPass(b) {
      forall i | 0 <= i < |a + b| ensures Passes((a + b)[i]) {
        if i >= |a| { assert (a + b)[i] == b[i - |a|]; }
      }
    }
  }

  lemma ReadCheckPasses(description: string, found: bool, holds: bool)
    ensures AllPass(ReadCheck(description, found, holds)) <==> found && holds
  {
    assert Passes(ReadCheck(description, found, holds)[0]) <==> found && holds;
  }

  /** The run reaches the closing line if and only if the page shows what
      the seven checks ask for, and then it has passed exactly the seven
      checks, in their fixed order. */
  lemma TabRunPassesIff(p: Page)
    ensures FirstFailure(TabSteps(p)) == |TabSteps(p)| <==> TabsWork(p)
    ensures TabsWork(p) ==> TabSteps(p) == [
              Check(CardExists, true), Check(TabAreaVisible, true),
              Check(HomepageHidden, true), Check(ResignationTabExists, true),
              Check(ResignationTabActive, true), Check(ResignationContentVisible, true),
              Check(DemographicsHidden, true)]
  {
    var card := CardSteps(p);
    var area := ReadCheck(TabAreaVisible, p.tabAreaDisplay.Some?, p.tabAreaDisplay == Some("block"));
    var home := ReadCheck(HomepageHidden, p.homepageDisplay.Some?, p.homepageDisplay == Some("none"));
    var tab := ResignationTabSteps(p);
    var view := ReadCheck(ResignationContentVisible, p.resignationViewActive.Some?, p.resignationViewActive == Some(true));
    var demo := ReadCheck(DemographicsHidden, p.demographicsViewActive.Some?, p.demographicsViewActive == Some(false));
    var steps := TabSteps(p);
    assert steps == card + area + home + tab + view + demo;
    AllPassConcat(card + area + home + tab + view, demo);
    AllPassConcat(card + area + home + tab, view);
    AllPassConcat(card + area + home, tab);
    AllPassConcat(card + area, home);
    AllPassConcat(card, area);
    assert AllPass(card) <==> p.recruitmentCard by {
      assert Passes(card[0]) <==> p.recruitmentCard;
    }
    ReadCheckPasses(TabAreaVisible, p.tabAreaDisplay.Some?, p.tabAreaDisplay == Some("block"));
    ReadCheckPasses(HomepageHidden, p.homepageDisplay.Some?, p.homepageDisplay == Some("none"));
    assert AllPass(tab) <==> p.resignationTabActive == Some(true) by {
      assert AllPass(tab) <==> Passes(tab[0]) && Passes(tab[1]);
    }
    ReadCheckPasses(ResignationContentVisible, p.resignationViewActive.Some?, p.resignationViewActive == Some(true));
    ReadCheckPasses(DemographicsHidden, p.demographicsViewActive.Some?, p.demographicsViewActive == Some(false));
    assert FirstFailure(steps) == |steps| <==> AllPass(steps);
  }
}

=== FILE: tabs_mock.dfy ===
/** The synchronous `google` stand-in of verify_tabs.js and the other globals
    it injects. `google.script.run` is a fixed chain of plain objects:
    `run` has only `withSuccessHandler`, its result has only
    `withFailureHandler`, and that result has exactly six backend methods,
    each of which calls the success handler at once with a constant payload.
    Any other property is undefined, so calling it throws a TypeError. */
module TabsMock {
  import opened JsValue

  /** The six backend methods of the last object in the chain. */
  const MethodNames: set<string> := {
    "checkUserAccess", "getEmployeeData", "getListsForDropdowns",
    "getUpcomingDues", "getAnalyticsData", "getResignationData"}

  /** The payload each method hands to the success handler. `timestamp`
      stands for `new Date().toISOString()` at the time of the call. */
  function Payload(name: string, timestamp: string): (r: Value)
    requires name in MethodNames
    ensures r.Obj?
    ensures name == "checkUserAccess" ==>
              Get(r, "isAuthorized") == Bool(true) && Get(r, "userEmail") == Str(TestEmail)
    ensures name == "getEmployeeData" ==>
              Get(r, "canEdit") == Bool(true) && "canApprove" !in r.fields &&
              "dropdownListData" !in r.fields &&
              Get(r, "currentUserEmail") == Str(TestEmail) &&
              Get(r, "snapshotTimestamp") == Str(timestamp)
    ensures name == "getListsForDropdowns" ==> r.fields == map[]
    ensures name == "getUpcomingDues" ==>
              Get(r, "upcoming") == Arr([]) && Get(r, "overdue") == Arr([])
    ensures name == "getAnalyticsData" || name == "getResignationData" ==> AllZero(r)
  {
    if name == "checkUserAccess" then
      Obj(map["isAuthorized" := Bool(true), "userEmail" := Str(TestEmail)])
    else if name == "getEmployeeData" then
      Obj(map[
        "current" := Arr([]),
        "previous" := Obj(map[]),
        "snapshotTimestamp" := Str(timestamp),
        "currentUserEmail" := Str(TestEmail),
        "canEdit" := Bool(true),
        "totalApprovedPlantilla" := Num(100),
        "previousDateString" := Str("2023-01-01")])
    else if name == "getListsForDropdowns" then
      Obj(map[])
    else if name == "getUpcomingDues" then
      Obj(map["upcoming" := Arr([]), "overdue" := Arr([])])
    else if name == "getAnalyticsData" then
      var r := Obj(map[
        "overallHeadcount" := Num(0), "totalHeadcount" := Num(0),
        "filteredPositionsCount" := Num(0),
        "statusCounts" := Obj(map[]), "contractCounts" := Obj(map[]),
        "genderCounts" := Obj(map[]), "jobGroupCounts" := Obj(map[]),
        "losCounts" := Obj(map[]), "newHiresByMonth" := Obj(map[]),
        "ageGenerationCounts" := Obj(map[])]);
      assert forall k | k in r.fields :: AllZero(r.fields[k]);
      r
    else
      var r := Obj(map[
        "filteredResignationsCount" := Num(0),
        "yearlyHiresLeavers" := Obj(map["hires" := Num(0), "leavers" := Num(0)]),
        "reasonCounts" := Obj(map[]), "resignationGenderCounts" := Obj(map[]),
        "resignationContractCounts" := Obj(map[]), "resignationDivisionCounts" := Obj(map[]),
        "resignationJobGroupCounts" := Obj(map[]),
        "monthlyTurnover" := Arr([]), "ytdTurnover" := Num(0),
        "attritionRate" := Num(0), "retentionRate" := Num(0)]);
      assert AllZero(r.fields["yearlyHiresLeavers"]);
      assert forall k | k in r.fields :: AllZero(r.fields[k]);
      r
  }

  /** Which object of the chain a property is read from. */
  datatype Stage =
    | RunObject                                      // google.script.run
    | FailureStep(handler: Value)                    // result of withSuccessHandler
    | MethodTable(handler: Value, failureHandler: Value)  // result of withFailureHandler

  /** What calling a property of a stage gives. */
  datatype Step = Next(stage: Stage) | Invoked(call: Invocation) | TypeError

  /** `stage[prop](...args)`. Each stage has its own fixed members; every
      other property is undefined, and calling it throws. A backend method
      calls the success handler synchronously, exactly once; the failure
      handler is taken and never called. */
  function Access(stage: Stage, prop: string, args: seq<Value>, timestamp: string): (r: Step)
    ensures r.Next? <==> (stage.RunObject? && prop == SuccessRegistration) ||
                         (stage.FailureStep? && prop == FailureRegistration)
    ensures r.Next? && stage.RunObject? ==> r.stage == FailureStep(FirstArg(args))
    ensures r.Next? && stage.FailureStep? ==> r.stage == MethodTable(stage.handler, FirstArg(args))
    ensures r.Invoked? <==> stage.MethodTable? && prop in MethodNames && stage.handler.Fn?
    ensures r.Invoked? ==> r.call == Invocation(stage.handler.id, [Payload(prop, timestamp)])
  {
    match stage
    case RunObject =>
      if prop == SuccessRegistration then Next(FailureStep(FirstArg(args))) else TypeError
    case FailureStep(h) =>
      if prop == FailureRegistration then Next(MethodTable(h, FirstArg(args))) else TypeError
    case MethodTable(h, _) =>
      if prop in MethodNames && h.Fn? then Invoked(Invocation(h.id, [Payload(prop, timestamp)]))
      else TypeError
  }

  /** One link of a call chain: a property name and the arguments it is
      called with. */
  datatype Call = Call(prop: string, args: seq<Value>)

  /** What a chain of calls did: the handler calls it made, in order, and
      whether it ended by throwing. */
  datatype Ran = Ran(calls: seq<Invocation>, threw: bool)

  /** `run.p1(...).p2(...)...`: the calls in order. A backend method calls
      the handler before the chain goes on; what the handler returns is
      unknown to the mock and treated as undefined, so any further link
      throws, after the handler has run. */
  function Chain(stage: Stage, calls: seq<Call>, timestamp: string): Ran
    decreases |calls|
  {
    if calls == [] then Ran([], false)
    else
      match Access(stage, calls[0].prop, calls[0].args, timestamp)
      case Next(st) => Chain(st, calls[1..], timestamp)
      case Invoked(c) => Ran([c], |calls| > 1)
      case TypeError => Ran([], true)
  }

  /** The links `calls` follow the fixed chain: success registration,
      failure registration, one of the six methods, in that order. */
  predicate InOrder(calls: seq<Call>) {
    |calls| >= 3 &&
    calls[0].prop == SuccessRegistration &&
    calls[1].prop == FailureRegistration &&
    calls[2].prop in MethodNames
  }

  /** The links `calls` are a prefix of a chain that can be completed
      without throwing. */
  predicate CompletablePrefix(calls: seq<Call>) {
    |calls| <= 3 &&
    (|calls| >= 1 ==> calls[0].prop == SuccessRegistration) &&
    (|calls| >= 2 ==> calls[1].prop == FailureRegistration) &&
    (|calls| == 3 ==> calls[2].prop in MethodNames && FirstArg(calls[0].args).Fn?)
  }

  /** The chain is fixed and order-dependent. A chain calls a handler if and
      only if its first three links are `withSuccessHandler(f)`,
      `withFailureHandler(..)` and one of the six methods, with `f` a
      function; it then calls exactly `f`, once, with that method's payload,
      and never the failure handler, whatever links follow. A chain throws
      if and only if it is not a prefix of such a three-link chain. */
  lemma ChainCallsOnlyInOrder(calls: seq<Call>, timestamp: string)
    ensures Chain(RunObject, calls, timestamp).calls != [] <==>
              InOrder(calls) && FirstArg(calls[0].args).Fn?
    ensures Chain(RunObject, calls, timestamp).calls != [] ==>
              Chain(RunObject, calls, timestamp).calls ==
                [Invocation(FirstArg(calls[0].args).id, [Payload(calls[2].prop, timestamp)])]
    ensures Chain(RunObject, calls, timestamp).threw <==> !CompletablePrefix(calls)
  {
    if |calls| >= 1 && calls[0].prop == SuccessRegistration {
      var s1 := FailureStep(FirstArg(calls[0].args));
      assert Chain(RunObject, calls, timestamp) == Chain(s1, calls[1..], timestamp);
      if |calls| >= 2 && calls[1].prop == FailureRegistration {
        var s2 := MethodTable(FirstArg(calls[0].args), FirstArg(calls[1].args));
        assert Chain(s1, calls[1..], timestamp) == Chain(s2, calls[2..], timestamp);
        if |calls| >= 3 {
          assert calls[2..][0] == calls[2];
        }
      }
    }
  }

  /** The failure handler given to the chain makes no difference to what it
      does. */
  lemma FailureHandlerIgnored(h: Value, f1: Value, f2: Value, more: seq<Call>, timestamp: string)
    ensures Chain(RunObject, [Call(SuccessRegistration, [h]), Call(FailureRegistration, [f1])] + more, timestamp) ==
            Chain(RunObject, [Call(SuccessRegistration, [h]), Call(FailureRegistration, [f2])] + more, timestamp)
  {
    var c1 := [Call(SuccessRegistration, [h]), Call(FailureRegistration, [f1])] + more;
    var c2 := [Call(SuccessRegistration, [h]), Call(FailureRegistration, [f2])] + more;
    assert c1[1..][1..] == c2[1..][1..] == more;
    assert Chain(RunObject, c1, timestamp) == Chain(MethodTable(h, f1), more, timestamp);
    assert Chain(RunObject, c2, timestamp) == Chain(MethodTable(h, f2), more, timestamp);
    if more != [] {
      assert Access(MethodTable(h, f1), more[0].prop, more[0].args, timestamp) ==
             Access(MethodTable(h, f2), more[0].prop, more[0].args, timestamp);
    }
  }

  /** `charts.setOnLoadCallback(cb)`: calls `cb` immediately, with no
      arguments, if and only if it is a function; otherwise does nothing. */
  function SetOnLoadCallback(cb: Value): seq<Invocation> {
    if cb.Fn? then [Invocation(cb.id, [])] else []
  }

  /** `confirm(message)`: always answers yes. */
  function Confirm(message: Value): bool {
    true
  }

  /** The chart constructors of `charts.visualization`. */
  datatype ChartKind = OrgChart | DataTable | PieChart | ColumnChart | ComboChart

  /** The methods of the object a chart constructor returns, all of which do
      nothing: charts can be drawn, a data table filled. */
  function ChartMethods(kind: ChartKind): set<string> {
    if kind == DataTable then {"addColumn", "addRow"} else {"draw"}
  }
}

=== FILE: timer_queue.dfy ===
/** The host's `setTimeout` queue, made explicit. A timer is due at the
    clock value when it was scheduled plus its delay; timers fire in order
    of due time, and timers due at the same time fire in the order they
    were scheduled. */
module TimerQueue {

  datatype Timer<T> = Timer(due: nat, task: T)

  /** Due times never decrease from the head of the queue to its tail. */
  ghost predicate Sorted<T>(q: seq<Timer<T>>) {
    forall i, j | 0 <= i < j < |q| :: q[i].due <= q[j].due
  }

  /** Every pending timer is due no earlier than `now`. */
  ghost predicate NotBefore<T>(q: seq<Timer<T>>, now: nat) {
    forall i | 0 <= i < |q| :: now <= q[i].due
  }

  /** Where `t` goes in `q`: behind the leading timers due no later than it. */
  function SlotFor<T>(q: seq<Timer<T>>, t: Timer<T>): (k: nat)
    ensures k <= |q|
    ensures forall i | 0 <= i < k :: q[i].due <= t.due
    ensures k < |q| ==> t.due < q[k].due
  {
    if q == [] || t.due < q[0].due then 0 else 1 + SlotFor(q[1..], t)
  }

  /** The slot lies behind every leading timer due no later than `t`. */
  lemma {:induction false} SlotForAtLeast<T>(q: seq<Timer<T>>, t: Timer<T>, m: nat)
    requires m <= |q|
    requires forall i | 0 <= i < m :: q[i].due <= t.due
    ensures m <= SlotFor(q, t)
  {
    if m > 0 {
      SlotForAtLeast(q[1..], t, m - 1);
    }
  }

  /** Schedule `t`: it goes in the slot behind the leading timers due no
      later than it. */
  function Schedule<T>(q: seq<Timer<T>>, t: Timer<T>): seq<Timer<T>> {
    q[..SlotFor(q, t)] + [t] + q[SlotFor(q, t)..]
  }

  /** Scheduling adds exactly `t` and keeps every other timer. */
  lemma ScheduleMultiset<T>(q: seq<Timer<T>>, t: Timer<T>)
    ensures multiset(Schedule(q, t)) == multiset(q) + multiset{t}
  {
    var k := SlotFor(q, t);
    assert q == q[..k] + q[k..];
    assert Schedule(q, t) == q[..k] + ([t] + q[k..]);
  }

  /** The timers ahead of the slot stay in front of `t`, the rest behind it,
      each in their old order. */
  lemma SchedulePositions<T>(q: seq<Timer<T>>, t: Timer<T>)
    ensures Schedule(q, t)[SlotFor(q, t)] == t
    ensures forall i | 0 <= i < SlotFor(q, t) :: Schedule(q, t)[i] == q[i]
    ensures forall i | SlotFor(q, t) < i < |q| + 1 :: Schedule(q, t)[i] == q[i - 1]
  {
  }

  /** A sorted queue stays sorted, and every timer behind `t` is due
      strictly later than it. */
  lemma {:induction false} ScheduleSorted<T>(q: seq<Timer<T>>, t: Timer<T>)
    requires Sorted(q)
    ensures Sorted(Schedule(q, t))
    ensures forall i | SlotFor(q, t) <= i < |q| :: t.due < q[i].due
  {
    var k := SlotFor(q, t);
    var r := Schedule(q, t);
    SchedulePositions(q, t);
    forall i, j | 0 <= i < j < |r| ensures r[i].due <= r[j].due {
      if j == k {
      } else if i == k {
        assert t.due < q[k].due && q[k].due <= q[j - 1].due;
      } else if i < k < j {
        assert q[i].due <= t.due < q[k].due <= q[j - 1].due;
      } else if k < i {
        assert q[i - 1].due <= q[j - 1].due;
      } else {
        assert j < k;
        assert q[i].due <= q[j].due;
      }
    }
  }

  /** Scheduling keeps every pending timer at or after `now` when the new
      one is too. */
  lemma ScheduleNotBefore<T>(q: seq<Timer<T>>, t: Timer<T>, now: nat)
    requires NotBefore(q, now) && now <= t.due
    ensures NotBefore(Schedule(q, t), now)
  {
    var r := Schedule(q, t);
    var k := SlotFor(q, t);
    SchedulePositions(q, t);
    forall i | 0 <= i < |r| ensures now <= r[i].due {
      if i < k {
        assert r[i] == q[i];
      } else if k < i {
        assert r[i] == q[i - 1];
      }
    }
  }

  /** Timers due at the same time fire first-scheduled, first-fired: of two
      timers scheduled one after the other with the same due time, the
      first stays ahead of the second. `a` goes in at its slot in `q`, `b`
      at a strictly later slot of the queue holding `a`, and the second
      insertion does not move `a`. */
  lemma SameDueFifo<T>(q: seq<Timer<T>>, a: Timer<T>, b: Timer<T>)
    requires a.due == b.due
    ensures var k1 := SlotFor(q, a);
            var k2 := SlotFor(Schedule(q, a), b);
            k1 < k2 < |q| + 2 &&
            Schedule(q, a)[k1] == a &&
            Schedule(Schedule(q, a), b)[k1] == a &&
            Schedule(Schedule(q, a), b)[k2] == b
  {
    var r1 := Schedule(q, a);
    var k1 := SlotFor(q, a);
    SchedulePositions(q, a);
    assert forall i | 0 <= i <= k1 :: r1[i].due <= b.due by {
      forall i | 0 <= i <= k1 ensures r1[i].due <= b.due {
        if i < k1 { assert r1[i] == q[i]; }
      }
    }
    SlotForAtLeast(r1, b, k1 + 1);
    var k2 := SlotFor(r1, b);
    var r2 := Schedule(r1, b);
    SchedulePositions(r1, b);
    assert r2[k1] == a && r2[k2] == b;
  }
}
